=== FILE: README.md ===
# ColorCycle colour values and time-to-hue mapping, in Dafny

This project models the deterministic core of ColorCycle. ColorCycle turns the time of day into a colour and shows that colour.

The core is the colour-value layer:
- `BaseRGB` is the channel triplet. It keeps the low eight bits of three integers.
- `RGB` and `Hex` are its two renderings.
- `HSL` is a hue, saturation and luminescence value, with its conversion around the colour wheel to RGB.
- `Color` is the abstract base. It holds the mode-dispatching `__format__`.

The core also includes `Time`. `Time` maps a time's minute and second to a hue in [0, 360) and renders itself as `HH:MM:SS`.

Every class is an immutable value, so the model is pure. Colours are one datatype, `Colors.Color`, with a variant per concrete class:
- `BaseRGB`
- `RGB`
- `Hex`
- `HSL`

The abstract `Color` itself has no variant. Building it through `Colors.NewColor` fails, as the source's constructor does. Python exceptions become the `Err` side of `Errors.Result`:
- `NotImplementedError` is `NotImplemented`;
- `ValueError` is `ValueError`;
- `ZeroDivisionError` is `ZeroDivision`.

Modules, one per source file plus three helpers:
- `Errors`: the result type.
- `Floats`: Python's float `%`, `int()`, `abs` and `max` over exact reals.
- `Text`: decimal, `02d` and `02x` renderings of integers.
- `BaseRgb`: the masked triplet and `rgbToHSL`.
- `HslWheel`: `hslToRGB`.
- `RgbFormat`: `RGB.__str__`.
- `HexFormat`: `Hex.__str__`.
- `Colors`: the colour datatype, the `toRGB`/`toHex`/`toHSL`/`str` dispatch and `__format__`.
- `TimeHue`: `Time`.

Floats are exact `real`s. The square root (`** 0.5`), `math.acos` and `.Nf` fixed-point formatting are not defined in the model: `acos` and the rounding of `.Nf` have no exact-real definition here. They are the fields of the parameter `Floats.FloatOps`. Where a property needs the square root to be exact, it says so with `Floats.IsSqrt`.

## Model

| member | source | states |
|---|---|---|
| BaseRgb.Mask | src/color/basergb.py:14-16 | `int(x) & 0xff` of an integer is a byte and equals `x mod 256`, for negative and large inputs too |
| BaseRgb.LowBitsIsMod | src/color/basergb.py:16 | keeping the low n bits of a two's-complement integer, bit by bit, is the non-negative remainder modulo 2^n |
| BaseRgb.MaskIdempotent | src/color/basergb.py:16 | an in-range byte is stored unchanged, so masking twice equals masking once |
| BaseRgb.MaskWraps | src/color/basergb.py:16 | masking wraps instead of clamping: 256→0, -1→255, 300→44, 511→255 |
| BaseRgb.MakeTriplet | src/color/basergb.py:13-38 | the constructor stores each argument mod 256 in red, green, blue order (read back by `red`, `green`, `blue`); in-range arguments are stored as given |
| BaseRgb.RebuildIsIdentity | src/color/basergb.py:13-18 | rebuilding a triplet from its own channels gives the same triplet |
| BaseRgb.Difference | src/color/basergb.py:50-52 | `(max - min) // 255` is 1 exactly when max is 255 and min is 0, and 0 otherwise |
| BaseRgb.Luminescence | src/color/basergb.py:53 | `(max + min) / 510` lies in [0, 1]; it is 0 only for black (max 0) and 1 only for white (min 255) |
| BaseRgb.SaturationDivisor | src/color/basergb.py:54 | `1 - abs(2·lum - 1)` lies in [0, 1] and is zero exactly when max + min is 0 or 510 |
| BaseRgb.HueRadicand | src/color/basergb.py:56 | the value under the square root is non-negative and is zero exactly for greys (red = green = blue) |
| BaseRgb.CosineInRange | src/color/basergb.py:55-57 | for the exact square root of the radicand, the ratio handed to `acos` lies in [-1, 1] |
| BaseRgb.RgbToHsl | src/color/basergb.py:41-60 | fails only by division by zero or by `acos` outside its domain; saturation is 1.0 for a full black-to-white spread and 0.0 otherwise; luminescence is `Luminescence` and lies strictly between 0 and 1 |
| BaseRgb.RgbToHslOutcome | src/color/basergb.py:50-60 | with an exact square root, the conversion fails exactly for greys and always with a division by zero; otherwise the cosine is in [-1, 1] and the hue is `acos` of it, mirrored to `360 - acos` when blue exceeds green |
| HslWheel.Spread | src/color/hsl.py:55 | for luminescence in [0, 1], `1 - abs(2·lum - 1)` lies in [0, 1] and half of it is at most both lum and 1 - lum |
| HslWheel.HslToRgb | src/color/hsl.py:49-77 | fails with ValueError exactly when the hue is below 0 or at least 360 |
| HslWheel.Sextant | src/color/hsl.py:62-73 | a valid hue lies in the half-open sextant [60k, 60k+60) for some k in 0..5 |
| HslWheel.SextantUnique | src/color/hsl.py:62-73 | the sextants are disjoint: a hue lies in only one of them |
| HslWheel.HslToRgbBySextant | src/color/hsl.py:59-77 | for a valid hue, the result is the truncated channel tuple of that hue's sextant, built from `255x+y`, `255z+y` and `y` |
| HslWheel.ComponentsInRange | src/color/hsl.py:55-60 | for saturation and luminescence in [0, 1]: chroma in [0, 1], second component in [0, chroma], and 0 ≤ y ≤ 255z+y ≤ 255x+y ≤ 255 |
| HslWheel.TruncatedWheel | src/color/hsl.py:62-77 | truncating ordered wheel values in [0, 255] gives bytes that are not wrapped and are in the sextant's channel order |
| HslWheel.WheelOrdering | src/color/hsl.py:55-77 | for a valid hue and saturation and luminescence in [0, 1], the conversion succeeds without wrap-around; channels follow the sextant's order; max is `int(255x+y)` and min is `int(y)` |
| HslWheel.PrimaryAt | src/color/hsl.py:55-77 | at hues 0, 120 and 240 with full saturation and half luminescence, the leading channel is 255 and the others are 0 |
| HslWheel.FullSaturationHalfLight | src/color/hsl.py:55-60 | at saturation 1 and luminescence 0.5, on an even multiple of 60°, the components are x'=255, y=0, z'=0 |
| HslWheel.Primaries | src/color/hsl.py:49-77 | HSL(0,1,0.5), HSL(120,1,0.5) and HSL(240,1,0.5) convert to (255,0,0), (0,255,0) and (0,0,255) |
| HslWheel.PrimaryTriplet | src/color/hsl.py:49-77 | the same three primaries, one sextant at a time |
| HslWheel.SecondRamps | src/color/hsl.py:55-57 | inside sextant k the second component is the chroma times (h/60 − k) when k is even and times (k + 1 − h/60) when k is odd: it rises linearly to the chroma, then falls back to 0 |
| HslWheel.SecondaryAt | src/color/hsl.py:49-77 | at hue 60k for odd k, full saturation and half luminescence, the second component is full and the sextant's channel order places 255, 255 and 0 |
| HslWheel.Secondaries | src/color/hsl.py:49-77 | HSL(60,1,0.5), HSL(180,1,0.5) and HSL(300,1,0.5) convert to (255,255,0), (0,255,255) and (255,0,255) |
| RgbFormat.RgbStr | src/color/rgb.py:42-45 | `rgb(R, G, B)` is between 12 and 18 characters long, starts with `rgb(` and ends with `)` |
| RgbFormat.RgbStrReadsBack | src/color/rgb.py:42-45 | the three numerals of `rgb(R, G, B)` read back as red, green and blue, in that order |
| RgbFormat.RgbStrInjective | src/color/rgb.py:42-45 | equal `rgb(...)` strings come only from equal channels |
| RgbFormat.NumeralListInjective | src/color/rgb.py:45 | `rgb(p1, p2, p3)` with decimal numerals splits back into its numerals in one way only |
| RgbFormat.NumeralPairInjective | src/color/rgb.py:45 | the tail `, p2, p3)` splits back into its numerals in one way only |
| HexFormat.HexStr | src/color/hex.py:42-45 | exactly six lower-case hex digits, two per channel in red, green, blue order; each pair read as base 16 gives back its channel |
| HexFormat.HexStrInjective | src/color/hex.py:42-45 | distinct colours have distinct hex strings |
| HexFormat.HexStrPadsChannels | src/color/hex.py:45 | channels are zero-padded: (255,0,0) gives "ff0000" and (5,171,16) gives "05ab10" |
| Text.Dec | src/color/rgb.py:45 | `str(n)` is a non-empty digit string without leading zeros that parses back to n; it has at most 3 digits below 1000 |
| Text.DecInjective | src/color/rgb.py:45 | distinct numbers have distinct decimal numerals |
| Text.Pad2 | src/colorcycle/time.py:34 | `{n:02d}` is two digits parsing back to n for 0 ≤ n < 100; it is the plain numeral from 100 up; for negatives it is `-` and the numeral of -n |
| Text.Hex2 | src/color/hex.py:45 | `{b:02x}` of a byte is two lower-case hex digits whose base-16 value is b |
| Text.DigitChar | src/color/hex.py:45 | the digit character of a value below 16 is a lower-case hex digit with that value |
| Text.SplitAtNonDigit | src/color/rgb.py:45 | a numeral followed by a non-digit splits from the rest in one way only |
| Floats.FloatMod | src/colorcycle/time.py:77 | Python's float `%` with a positive divisor lies in [0, m) |
| Floats.FloatModUnique | src/colorcycle/time.py:77 | `x % m` is the unique r in [0, m) that differs from x by a whole multiple of m |
| Floats.FloatModPeriodic | src/colorcycle/time.py:77 | shifting x by whole multiples of m leaves `x % m` unchanged |
| Floats.FloatModOfRange | src/colorcycle/time.py:77 | values already in [0, m) are left unchanged |
| Floats.Trunc | src/color/hsl.py:77 | `int(x)` truncates toward zero: within one of x in magnitude, never larger, and with the sign of x |
| Floats.TruncMonotone | src/color/hsl.py:77 | on non-negative values, truncation keeps the order |
| Floats.SqrtFacts | src/color/basergb.py:56 | the exact square root is non-negative, squares back, and is zero only at zero |
| Colors.NewColor | src/color/color.py:21-29 | building the abstract Color fails with NotImplemented; the RGB family stores `int(a) mod 256` and so on; HSL keeps its three arguments in order |
| Colors.NewColorFromInts | src/color/basergb.py:13-18 | built from integers, every channel is the argument mod 256 |
| Colors.ToRGB | src/color/color.py:180-185 | the result is an RGB; it is the identity on RGB (rgb.py:36-39) and keeps the channels from Hex (hex.py:34-39); it fails with NotImplemented on BaseRGB and with ValueError on an HSL hue outside [0, 360); on a valid HSL its channels are those `hslToRGB` computes (hsl.py:97-100) |
| Colors.ToHex | src/color/color.py:164-169 | the result is a Hex; it is the identity on Hex (hex.py:22-25) and keeps the channels from RGB (rgb.py:22-27); it fails with NotImplemented on BaseRGB and with ValueError on an out-of-range HSL hue; on a valid HSL its channels are those `hslToRGB` computes (hsl.py:80-88) |
| Colors.ToHSL | src/color/basergb.py:63-71 | the result is an HSL; it is the identity on HSL (hsl.py:91-94); on a triplet it fails exactly when `rgbToHSL` does, and otherwise carries its saturation and luminescence |
| Colors.HslStr | src/color/hsl.py:22-25 | `hsl(...)` has at least 9 characters, starts with `hsl(` and ends with `)` |
| Colors.Str | src/color/basergb.py:74-77 | `str` raises NotImplemented on BaseRGB; on Hex it is 6 hex digits; on RGB and HSL it is the bracketed forms |
| Colors.Format | src/color/color.py:72-106 | an unknown mode is a ValueError; `""` gives `""`; each of hex, rgb and hsl fails exactly when its conversion fails; the output has that class's shape |
| Colors.FormatHexRendersToHex | src/color/color.py:96-104 | when `toHex()` succeeds, mode "hex" gives `str(toHex())`, the hex string of its channels |
| Colors.FormatRgbRendersToRgb | src/color/color.py:96-104 | when `toRGB()` succeeds, mode "rgb" gives `str(toRGB())` |
| Colors.FormatHslRendersToHsl | src/color/color.py:96-104 | when `toHSL()` succeeds, mode "hsl" gives `str(toHSL())` |
| Colors.FormatRedAsHex | src/color/color.py:72-104 | RGB(255,0,0) formats as "ff0000" both in mode "hex" and under the `mode='hex'` default of a direct `__format__()` call (`format(c)` and `f'{c}'` pass the empty mode instead, which gives `""`) |
| Colors.FormatRedAsRgb | src/color/color.py:96-104 | RGB(255,0,0) formats as "rgb(255, 0, 0)" in mode "rgb" |
| Colors.RedInDecimal | src/color/rgb.py:42-45 | the decimal rendering of pure red is "rgb(255, 0, 0)" |
| Colors.FormatModeExamples | src/color/color.py:91-106 | for every colour, mode `""` gives `""` and mode "bogus" is a ValueError |
| Colors.RgbHexRoundTrip | src/color/rgb.py:22-27 | RGB → Hex → RGB and Hex → RGB → Hex give back the starting value |
| Colors.HslPrimariesConvert | src/color/hsl.py:80-100 | HSL(0,1,0.5) and HSL(120,1,0.5) convert to RGB (255,0,0) and (0,255,0); HSL(240,1,0.5) converts to Hex (0,0,255) |
| Colors.ConversionsIdempotent | src/color/rgb.py:36-39 | converting twice to RGB, to Hex or to HSL is the same as converting once |
| Colors.HslHexMatchesRgb | src/color/hsl.py:80-100 | HSL's `toHex` and `toRGB` both fail or both give the same channels |
| Colors.ToHslShared | src/color/rgb.py:30-33 | RGB, Hex and BaseRGB share one `toHSL`, which is `rgbToHSL` of the stored channels in red, green, blue order |
| Colors.ToHslFailsOnGreys | src/color/hex.py:28-31 | with an exact square root, `toHSL` of an RGB and of a Hex colour fails exactly on greys, by division by zero |
| TimeHue.Reflect | src/colorcycle/time.py:80 | `(360 - h) % 360` lies in [0, 360) |
| TimeHue.ToHue | src/colorcycle/time.py:67-82 | fails by division by zero exactly when the span is 0; otherwise the hue lies in [0, 360) for every start hue and span, negative spans included |
| TimeHue.ToHSL | src/colorcycle/time.py:85-99 | an HSL whose hue is `toHue` of the same arguments, with saturation and luminescence passed through; fails exactly when `toHue` does |
| TimeHue.Str | src/colorcycle/time.py:28-34 | `HH:MM:SS` is at least 8 characters |
| TimeHue.StrLayout | src/colorcycle/time.py:34 | for fields in [0, 99], the string has 8 characters, colons at positions 2 and 5, and three two-digit fields that parse back to hour, minute and second |
| TimeHue.HueIgnoresHour | src/colorcycle/time.py:73-75 | times with the same minute and second get the same hue, whatever the hour |
| TimeHue.HueExamples | src/colorcycle/time.py:67-82 | 00:00 gives 0 and 00:30 gives 180; startHue 90 gives 90; 00:30 reversed gives 180; 00:15 reversed gives 270; 00:00:30 gives 3; 05:30 and 17:30 agree |
| TimeHue.ReflectInvolution | src/colorcycle/time.py:79-80 | the reverse step fixes 0 and 180 and undoes itself on [0, 360) |
| TimeHue.ReflectMirrors | src/colorcycle/time.py:79-80 | for 0 < h < 360 the reverse step gives exactly 360 − h, so a reversed hue runs backwards round the wheel |
| TimeHue.HueAdvancesBySecond | src/colorcycle/time.py:73-77 | one more second adds 360/(60·span) degrees to the forward hue, modulo 360 |
| TimeHue.ReverseReflects | src/colorcycle/time.py:77-80 | the reversed hue is the reflection of the forward hue, and the reverse |
| TimeHue.HueCycles | src/colorcycle/time.py:75-77 | with a whole-minute span k ≠ 0, moving the minute on by k leaves the hue unchanged |
| TimeHue.TimeColourConverts | src/colorcycle/time.py:85-99 | for a non-zero span, the time's HSL colour converts to RGB and to Hex without error |

Members without a row are the named intermediate values and small arithmetic steps of the rows above them. For example, `HslWheel.Chroma`, `Second`, `Top`, `Middle` and `Offset` are x, z, x' = 255x + y, z' = 255z + y and y of hsl.py:55-60. `BaseRgb.HueNumerator` is the numerator of basergb.py:55. `Floats.DivShift` and `BaseRgb.LowBitsStep` are proof steps.

## Left out

- `Color.updatePath`, `pathFilename`, `exportImage` and `toPNG` (src/color/color.py:32-161): filesystem, environment and PNG-library I/O.
- `Time.getTime` (src/colorcycle/time.py:102-111): a read of the wall clock.
- `src/colorcycle/client.py` and `src/main.py`: the signal handler, image creation, the wallpaper shell call and the polling loop.
- `ArgsIterable` (src/collections/argsiterable.py): the stored `args` tuple is the fields of the datatypes. Iterating it is the positional unpacking `RGB(*self)`, which the model writes out as the three fields. Keyword arguments are ignored by every modelled class and are not modelled.
- IEEE-754 floats: every float is an exact `real`. Rounding error and a `%` result of 360.0 from rounding are not modelled.
- The square root (`** 0.5`), `math.acos` and the `.1f`/`.3f` renderings are parameters (`Floats.FloatOps`), not definitions. `Colors.HslStr` therefore states only the frame `hsl(…, …, …)`, not the digits.
- BaseRgb.RgbToHsl: the hue is used as written. It is the arc cosine in radians, stored as if it were degrees. Saturation comes from the integer `//` as written, so it is only ever 0 or 1.
- `Color.toHSL` (src/color/color.py:172-177): every class a program can build overrides it, so no modelled value reaches it. The `cls is Color` guard of `__format__` is unreachable for the same reason: the abstract class cannot be built.
- Integer widths: Python integers are unbounded, as are Dafny's, so nothing wraps except where the source masks.

=== FILE: basergb.dfy ===
/**
 * The channel triplet shared by RGB and Hex (class BaseRGB): three integers
 * kept to their low eight bits, and the RGB-to-HSL conversion both classes
 * inherit.
 */
module BaseRgb {
  import opened Errors
  import opened Floats

  type Byte = b: int | 0 <= b < 256

  function Pow2(n: nat): (p: nat)
    ensures 1 <= p
  {
    if n == 0 then 1 else 2 * Pow2(n - 1)
  }

  /**
   * `x & (2^n - 1)` on a Python integer of any sign: Python ints behave as
   * two's complement of unbounded width, so the result is the low n bits,
   * taken one at a time with an arithmetic (flooring) shift.
   */
  function LowBits(x: int, n: nat): (r: int)
    decreases n
    ensures 0 <= r < Pow2(n)
  {
    if n == 0 then 0 else x % 2 + 2 * LowBits(x / 2, n - 1)
  }

  /** Euclidean division is pinned down by its quotient-remainder equation. */
  lemma DivModUnique(x: int, m: int, k: int, r: int)
    requires 0 < m && 0 <= r < m && x == m * k + r
    ensures x / m == k && x % m == r
  {
    var q, s := x / m, x % m;
    assert m * (k - q) == s - r;
    ScaledAwayFromZero(m, k - q);
  }

  /** A non-zero whole multiple of m is at least m away from zero. */
  lemma ScaledAwayFromZero(m: int, d: int)
    requires 0 < m
    ensures 1 <= d ==> m <= m * d
    ensures d <= -1 ==> m * d <= -m
  {
    assert m * d - m == m * (d - 1);
    assert m * d + m == m * (d + 1);
  }

  /** Keeping the low n bits is the non-negative remainder modulo 2^n. */
  lemma {:induction false} LowBitsIsMod(x: int, n: nat)
    decreases n
    ensures LowBits(x, n) == x % Pow2(n)
  {
    if n > 0 {
      var q, b := x / 2, x % 2;
      var p := Pow2(n - 1);
      LowBitsIsMod(q, n - 1);
      assert LowBits(x, n) == b + 2 * (q % p);
      LowBitsStep(x, q, b, p, q / p, q % p);
      assert Pow2(n) == 2 * p;
    }
  }

  /**
   * One step of the induction: if x = 2q + b with bit b, and q leaves t modulo
   * p, then x leaves 2t + b modulo 2p.
   */
  lemma LowBitsStep(x: int, q: int, b: int, p: int, j: int, t: int)
    requires x == 2 * q + b && 0 <= b < 2
    requires 0 < p && q == p * j + t && 0 <= t < p
    ensures x % (2 * p) == 2 * t + b
  {
    assert (2 * p) * j == 2 * (p * j);
    assert x == (2 * p) * j + (2 * t + b);
    DivModUnique(x, 2 * p, j, 2 * t + b);
  }

  /** The `int(x) & 0xff` of the constructor, for an integer argument. */
  function Mask(x: int): (r: Byte)
    ensures r == x % 256
  {
    LowBitsIsMod(x, 8);
    LowBits(x, 8)
  }

  /** A byte is stored unchanged, so masking twice is masking once. */
  lemma MaskIdempotent(x: int)
    ensures 0 <= x < 256 ==> Mask(x) == x
    ensures Mask(Mask(x)) == Mask(x)
  {
    var m := Mask(x);
    DivModUnique(m, 256, 0, m);
    if 0 <= x < 256 {
      DivModUnique(x, 256, 0, x);
    }
  }

  /** Masking wraps around instead of clamping. */
  lemma MaskWraps()
    ensures Mask(256) == 0 && Mask(-1) == 255 && Mask(300) == 44 && Mask(511) == 255
  {
  }

  /** The stored channels: `args` of a BaseRGB, read back by `red`, `green`, `blue`. */
  datatype Triplet = Triplet(red: Byte, green: Byte, blue: Byte)

  /** `BaseRGB.__init__(red, green, blue)`: each argument masked, order kept. */
  function MakeTriplet(red: int, green: int, blue: int): (t: Triplet)
    ensures t.red == red % 256 && t.green == green % 256 && t.blue == blue % 256
    ensures 0 <= red < 256 && 0 <= green < 256 && 0 <= blue < 256 ==>
              t == Triplet(red, green, blue)
  {
    MaskIdempotent(red);
    MaskIdempotent(green);
    MaskIdempotent(blue);
    Triplet(Mask(red), Mask(green), Mask(blue))
  }

  /** Rebuilding a triplet from its own channels (`RGB(*self)`, `Hex(*self)`) changes nothing. */
  lemma RebuildIsIdentity(t: Triplet)
    ensures MakeTriplet(t.red, t.green, t.blue) == t
  {
  }

  function Max3(a: int, b: int, c: int): (m: int)
    ensures a <= m && b <= m && c <= m && (m == a || m == b || m == c)
  {
    if a < b then (if b < c then c else b) else (if a < c then c else a)
  }

  function Min3(a: int, b: int, c: int): (m: int)
    ensures m <= a && m <= b && m <= c && (m == a || m == b || m == c)
  {
    if b < a then (if c < b then c else b) else (if c < a then c else a)
  }

  function MaxChannel(t: Triplet): Byte { Max3(t.red, t.green, t.blue) }

  function MinChannel(t: Triplet): Byte { Min3(t.red, t.green, t.blue) }

  predicate IsGrey(t: Triplet) { t.red == t.green == t.blue }

  /** `difference = (maximum - minimum) // 0xff`: integer division, so only full black-to-white spread gives 1. */
  function Difference(t: Triplet): (d: int)
    ensures d == (if MaxChannel(t) == 255 && MinChannel(t) == 0 then 1 else 0)
  {
    var spread := MaxChannel(t) - MinChannel(t);
    assert spread == 255 || (0 <= spread < 255);
    spread / 255
  }

  /** `luminescence = (maximum + minimum) / 510` */
  function Luminescence(t: Triplet): (l: real)
    ensures 0.0 <= l <= 1.0
    ensures l == 0.0 <==> MaxChannel(t) == 0
    ensures l == 1.0 <==> MinChannel(t) == 255
  {
    (MaxChannel(t) + MinChannel(t)) as real / 510.0
  }

  /** The divisor of the saturation formula, `1 - abs(2 * luminescence - 1)`. */
  function SaturationDivisor(t: Triplet): (d: real)
    ensures 0.0 <= d <= 1.0
    ensures d == 0.0 <==> MaxChannel(t) + MinChannel(t) == 0 || MaxChannel(t) + MinChannel(t) == 510
  {
    1.0 - Abs(2.0 * Luminescence(t) - 1.0)
  }

  /** `red - green / 2 - blue / 2`: the projection of the colour onto the red axis of the colour wheel. */
  function HueNumerator(t: Triplet): real
  {
    t.red as real - t.green as real / 2.0 - t.blue as real / 2.0
  }

  /** The value under the square root of the hue formula. */
  function HueRadicand(t: Triplet): (d: int)
    ensures 0 <= d
    ensures d == 0 <==> IsGrey(t)
  {
    var r, g, b := t.red, t.green, t.blue;
    RadicandIsSumOfSquares(r, g, b);
    SquareSign(r - g);
    SquareSign(r - b);
    SquareSign(g - b);
    r * r + g * g + b * b - r * g - r * b - g * b
  }

  lemma RadicandIsSumOfSquares(r: int, g: int, b: int)
    ensures 2 * (r * r + g * g + b * b - r * g - r * b - g * b)
         == (r - g) * (r - g) + (r - b) * (r - b) + (g - b) * (g - b)
  {
  }

  lemma SquareSign(a: int)
    ensures 0 <= a * a
    ensures a * a == 0 <==> a == 0
  {
    var m := if a < 0 then -a else a;
    assert a * a == m * m;
    if m != 0 {
      ScaledAwayFromZero(m, m);
    }
  }

  /**
   * The ratio handed to `acos` is a cosine: for the exact square root of the
   * radicand it lies in [-1, 1], so `acos` never fails on its domain.
   */
  lemma CosineInRange(t: Triplet, root: real)
    requires 0.0 < root && root * root == HueRadicand(t) as real
    ensures -1.0 <= HueNumerator(t) / root <= 1.0
  {
    var n := HueNumerator(t);
    var g, b := t.green as real, t.blue as real;
    assert root * root - n * n == 0.75 * ((g - b) * (g - b));
    assert 0.0 <= (g - b) * (g - b) by { SquareIsNonNegative(g - b); }
    RatioBound(n, root);
  }

  /** |n| <= root, stated through squares, bounds the ratio n / root to [-1, 1]. */
  lemma RatioBound(n: real, root: real)
    requires 0.0 < root && n * n <= root * root
    ensures -1.0 <= n / root <= 1.0
  {
    var c := n / root;
    assert n == root * c;
    SquareMonotone(root, Abs(n));
    assert Abs(n) * Abs(n) == n * n;
    assert Abs(n) <= root;
    ScaleLess(root, 1.0, c);
    ScaleLess(root, c, -1.0);
  }

  lemma SquareIsNonNegative(a: real)
    ensures 0.0 <= a * a
  {
    if a < 0.0 {
      assert a * a == (-a) * (-a);
    }
  }

  /** Squaring keeps the order of non-negative reals. */
  lemma SquareMonotone(a: real, b: real)
    requires 0.0 <= a
    ensures a < b ==> a * a < b * b
  {
    if a < b {
      assert b * b - a * a == (b + a) * (b - a);
      ScaleLess(b + a, 0.0, b - a);
      assert (b + a) * 0.0 == 0.0;
    }
  }

  /**
   * `BaseRGB.rgbToHSL(red, green, blue)`, giving (hue, saturation, luminescence).
   * The hue is the arc cosine itself, used as degrees without conversion from
   * radians, as in the source.
   */
  function RgbToHsl(t: Triplet, ops: FloatOps): (r: Result<(real, real, real)>)
    ensures r.Err? ==> r.error == ZeroDivision || r.error == ValueError
    ensures r.Ok? ==> r.value.1 == (if MaxChannel(t) == 255 && MinChannel(t) == 0 then 1.0 else 0.0)
    ensures r.Ok? ==> r.value.2 == Luminescence(t) && 0.0 < r.value.2 < 1.0
  {
    var divisor := SaturationDivisor(t);
    if divisor == 0.0 then Err(ZeroDivision)
    else
      var saturation := Max(Difference(t) as real / divisor, 0.0);
      var root := ops.sqrt(HueRadicand(t) as real);
      if root == 0.0 then Err(ZeroDivision)
      else
        var cosine := HueNumerator(t) / root;
        if cosine < -1.0 || 1.0 < cosine then Err(ValueError)
        else
          var angle := ops.acos(cosine);
          var hue := if t.blue > t.green then 360.0 - angle else angle;
          Ok((hue, saturation, Luminescence(t)))
  }

  /**
   * With an exact square root, the conversion fails exactly on the greys
   * (red == green == blue), always with a division by zero: pure black and
   * white at the saturation divisor, every other grey at the hue divisor.
   * Every other colour converts, and its hue is the arc cosine of a value in
   * [-1, 1], mirrored to 360 minus it when blue exceeds green.
   */
  lemma RgbToHslOutcome(t: Triplet, ops: FloatOps)
    requires IsSqrt(ops.sqrt)
    ensures RgbToHsl(t, ops).Err? <==> IsGrey(t)
    ensures RgbToHsl(t, ops).Err? ==> RgbToHsl(t, ops).error == ZeroDivision
    ensures RgbToHsl(t, ops).Ok? ==>
      var cosine := HueNumerator(t) / ops.sqrt(HueRadicand(t) as real);
      -1.0 <= cosine <= 1.0 &&
      RgbToHsl(t, ops).value.0 == (if t.blue > t.green then 360.0 - ops.acos(cosine) else ops.acos(cosine))
  {
    var d := HueRadicand(t) as real;
    var root := ops.sqrt(d);
    SqrtFacts(ops.sqrt, d);
    if root != 0.0 {
      CosineInRange(t, root);
    }
  }
}

=== FILE: color.dfy ===
/**
 * The colour values and their shared operations: the abstract class Color,
 * its concrete classes BaseRGB, RGB, Hex and HSL as the variants of one
 * datatype, the conversions `toRGB`, `toHex`, `toHSL`, `str`, and the
 * mode-dispatching `__format__`.
 */
module Colors {
  import opened Errors
  import opened Floats
  import opened Text
  import opened BaseRgb
  import opened HslWheel
  import opened RgbFormat
  import opened HexFormat

  /** A colour value, tagged with the class it is an instance of. */
  datatype Color =
    | BaseRGB(ch: Triplet)  // a direct instance of the shared base of RGB and Hex
    | RGB(ch: Triplet)
    | Hex(ch: Triplet)
    | HSL(hue: real, saturation: real, luminescence: real)

  /** The classes a program can instantiate, the abstract base Color among them. */
  datatype ColorClass = ColorBase | BaseRGBClass | RGBClass | HexClass | HSLClass

  /** `Color.MODES`: the format modes besides the empty one. */
  const Modes: set<string> := {"hsl", "hex", "rgb"}

  function ClassOf(c: Color): ColorClass
  {
    match c
    case BaseRGB(_) => BaseRGBClass
    case RGB(_) => RGBClass
    case Hex(_) => HexClass
    case HSL(_, _, _) => HSLClass
  }

  /**
   * `cls(a, b, c)`: `Color.__init__` refuses to build the abstract base; the
   * RGB family passes each argument through `int(x) & 0xff`; HSL keeps its
   * three arguments, in order, unchecked.
   */
  function NewColor(cls: ColorClass, a: real, b: real, c: real): (r: Result<Color>)
    ensures r.Err? <==> cls == ColorBase
    ensures r.Err? ==> r.error == NotImplemented
    ensures r.Ok? ==> ClassOf(r.value) == cls
    ensures r.Ok? && !r.value.HSL? ==>
      r.value.ch.red == Trunc(a) % 256 && r.value.ch.green == Trunc(b) % 256 && r.value.ch.blue == Trunc(c) % 256
    ensures r.Ok? && r.value.HSL? ==>
      r.value.hue == a && r.value.saturation == b && r.value.luminescence == c
  {
    match cls
    case ColorBase => Err(NotImplemented)
    case BaseRGBClass => Ok(BaseRGB(MakeTriplet(Trunc(a), Trunc(b), Trunc(c))))
    case RGBClass => Ok(RGB(MakeTriplet(Trunc(a), Trunc(b), Trunc(c))))
    case HexClass => Ok(Hex(MakeTriplet(Trunc(a), Trunc(b), Trunc(c))))
    case HSLClass => Ok(HSL(a, b, c))
  }

  /**
   * `toRGB()`: the identity on RGB, a rebuild from the same channels on
   * Hex, the colour-wheel conversion on HSL, and the abstract method of
   * Color (never overridden) on BaseRGB.
   */
  function ToRGB(c: Color): (r: Result<Color>)
    ensures r.Ok? ==> r.value.RGB?
    ensures r.Err? <==> c.BaseRGB? || (c.HSL? && (c.hue < 0.0 || 360.0 <= c.hue))
    ensures r.Err? ==> r.error == (if c.BaseRGB? then NotImplemented else ValueError)
    ensures c.RGB? ==> r == Ok(c)
    ensures c.Hex? ==> r == Ok(RGB(c.ch))
    ensures c.HSL? && r.Ok? ==> r.value.ch == HslToRgb(c.hue, c.saturation, c.luminescence).value
  {
    match c
    case BaseRGB(_) => Err(NotImplemented)
    case RGB(_) => Ok(c)
    case Hex(t) =>
      RebuildIsIdentity(t);
      Ok(RGB(MakeTriplet(t.red, t.green, t.blue)))
    case HSL(h, s, l) =>
      var rgb := HslToRgb(h, s, l);
      if rgb.Err? then Err(rgb.error) else Ok(RGB(rgb.value))
  }

  /**
   * `toHex()`: the identity on Hex, a rebuild from the same channels on
   * RGB, and on HSL the colour-wheel conversion followed by `Hex(*rgb)`.
   */
  function ToHex(c: Color): (r: Result<Color>)
    ensures r.Ok? ==> r.value.Hex?
    ensures r.Err? <==> c.BaseRGB? || (c.HSL? && (c.hue < 0.0 || 360.0 <= c.hue))
    ensures r.Err? ==> r.error == (if c.BaseRGB? then NotImplemented else ValueError)
    ensures c.Hex? ==> r == Ok(c)
    ensures c.RGB? ==> r == Ok(Hex(c.ch))
    ensures c.HSL? && r.Ok? ==> r.value.ch == HslToRgb(c.hue, c.saturation, c.luminescence).value
  {
    match c
    case BaseRGB(_) => Err(NotImplemented)
    case RGB(t) =>
      RebuildIsIdentity(t);
      Ok(Hex(MakeTriplet(t.red, t.green, t.blue)))
    case Hex(_) => Ok(c)
    case HSL(h, s, l) =>
      var rgb := HslToRgb(h, s, l);
      if rgb.Err? then Err(rgb.error)
      else
        RebuildIsIdentity(rgb.value);
        Ok(Hex(MakeTriplet(rgb.value.red, rgb.value.green, rgb.value.blue)))
  }

  /** `toHSL()`: the identity on HSL; the shared `BaseRGB.rgbToHSL` of the stored channels otherwise. */
  function ToHSL(c: Color, ops: FloatOps): (r: Result<Color>)
    ensures r.Ok? ==> r.value.HSL?
    ensures c.HSL? ==> r == Ok(c)
    ensures !c.HSL? ==> (r.Err? <==> RgbToHsl(c.ch, ops).Err?)
    ensures !c.HSL? && r.Ok? ==>
      r.value.luminescence == Luminescence(c.ch) &&
      r.value.saturation == (if MaxChannel(c.ch) == 255 && MinChannel(c.ch) == 0 then 1.0 else 0.0)
  {
    match c
    case HSL(_, _, _) => Ok(c)
    case _ =>
      var hsl := RgbToHsl(c.ch, ops);
      if hsl.Err? then Err(hsl.error) else Ok(HSL(hsl.value.0, hsl.value.1, hsl.value.2))
  }

  /** `HSL.__str__`: `f'hsl({hue:.1f}, {saturation:.3f}, {luminescence:.3f})'`. */
  function HslStr(h: real, s: real, l: real, fixed: (real, nat) -> string): (r: string)
    ensures 9 <= |r| && r[..4] == "hsl(" && r[|r| - 1] == ')'
  {
    var r := "hsl(" + fixed(h, 1) + ", " + fixed(s, 3) + ", " + fixed(l, 3) + ")";
    assert r[..4] == "hsl(";
    r
  }

  /** `str(c)`: each concrete class's rendering; BaseRGB's own `__str__` raises. */
  function Str(c: Color, ops: FloatOps): (r: Result<string>)
    ensures r.Err? <==> c.BaseRGB?
    ensures r.Err? ==> r.error == NotImplemented
    ensures c.Hex? ==> |r.value| == 6 && forall i :: 0 <= i < 6 ==> IsHexDigit(r.value[i])
    ensures c.RGB? ==> 12 <= |r.value| && r.value[..4] == "rgb(" && r.value[|r.value| - 1] == ')'
    ensures c.HSL? ==> 9 <= |r.value| && r.value[..4] == "hsl(" && r.value[|r.value| - 1] == ')'
  {
    match c
    case BaseRGB(_) => Err(NotImplemented)
    case RGB(t) => Ok(RgbStr(t))
    case Hex(t) => Ok(HexStr(t))
    case HSL(h, s, l) => Ok(HslStr(h, s, l, ops.fixed))
  }

  /** The `modeConvert` table of `__format__`: the conversion a mode selects. */
  function Convert(c: Color, mode: string, ops: FloatOps): Result<Color>
    requires mode in Modes
  {
    if mode == "hsl" then ToHSL(c, ops)
    else if mode == "hex" then ToHex(c)
    else ToRGB(c)
  }

  /**
   * `Color.__format__(mode)`: an unknown mode is a ValueError, the empty
   * mode gives the empty string, and the modes "hsl", "hex" and "rgb"
   * convert to that class and render the result. The "hex" default is the
   * method's own: it applies to a direct `c.__format__()` call, while
   * `format(c)` and `f'{c}'` pass the empty mode.
   */
  function Format(c: Color, ops: FloatOps, mode: string := "hex"): (r: Result<string>)
    ensures mode !in Modes && mode != "" ==> r == Err(ValueError)
    ensures mode == "" ==> r == Ok("")
    ensures mode == "hex" ==> (r.Err? <==> ToHex(c).Err?)
    ensures mode == "rgb" ==> (r.Err? <==> ToRGB(c).Err?)
    ensures mode == "hsl" ==> (r.Err? <==> ToHSL(c, ops).Err?)
    ensures mode == "hex" && r.Ok? ==> |r.value| == 6 && forall i :: 0 <= i < 6 ==> IsHexDigit(r.value[i])
    ensures mode == "rgb" && r.Ok? ==> 12 <= |r.value| && r.value[..4] == "rgb("
    ensures mode == "hsl" && r.Ok? ==> 9 <= |r.value| && r.value[..4] == "hsl("
  {
    if mode !in Modes && mode != "" then Err(ValueError)
    else if mode == "" then Ok("")
    else
      var converted := Convert(c, mode, ops);
      if converted.Err? then Err(converted.error) else Str(converted.value, ops)
  }

  /** Mode "hex" renders `toHex()`: the hex string of the converted channels. */
  lemma FormatHexRendersToHex(c: Color, ops: FloatOps)
    requires ToHex(c).Ok?
    ensures Format(c, ops, "hex") == Ok(HexStr(ToHex(c).value.ch))
  {
    assert "hex" in Modes;
    assert Convert(c, "hex", ops) == ToHex(c);
  }

  /** Mode "rgb" renders `toRGB()`: the `rgb(...)` string of the converted channels. */
  lemma FormatRgbRendersToRgb(c: Color, ops: FloatOps)
    requires ToRGB(c).Ok?
    ensures Format(c, ops, "rgb") == Ok(RgbStr(ToRGB(c).value.ch))
  {
    assert "rgb" in Modes;
    assert Convert(c, "rgb", ops) == ToRGB(c);
  }

  /** Mode "hsl" renders `toHSL()`: the `hsl(...)` string of the converted values. */
  lemma FormatHslRendersToHsl(c: Color, ops: FloatOps)
    requires ToHSL(c, ops).Ok?
    ensures
      var h := ToHSL(c, ops).value;
      Format(c, ops, "hsl") == Ok(HslStr(h.hue, h.saturation, h.luminescence, ops.fixed))
  {
    assert "hsl" in Modes;
    assert Convert(c, "hsl", ops) == ToHSL(c, ops);
  }

  /** Constructing from integers: every channel is the argument modulo 256, whatever its sign or size. */
  lemma NewColorFromInts(cls: ColorClass, red: int, green: int, blue: int)
    requires cls == BaseRGBClass || cls == RGBClass || cls == HexClass
    ensures
      var r := NewColor(cls, red as real, green as real, blue as real);
      r.Ok? && r.value.ch.red == red % 256 && r.value.ch.green == green % 256 && r.value.ch.blue == blue % 256
  {
    TruncOfInt(red);
    TruncOfInt(green);
    TruncOfInt(blue);
  }

  /** RGB to Hex and back, and Hex to RGB and back, lose nothing. */
  lemma RgbHexRoundTrip(t: Triplet)
    ensures ToHex(RGB(t)).Ok? && ToRGB(ToHex(RGB(t)).value) == Ok(RGB(t))
    ensures ToRGB(Hex(t)).Ok? && ToHex(ToRGB(Hex(t)).value) == Ok(Hex(t))
  {
  }

  /** The primaries as HSL colours convert to pure red, green and blue, as RGB and as Hex. */
  lemma HslPrimariesConvert()
    ensures ToRGB(HSL(0.0, 1.0, 0.5)) == Ok(RGB(Triplet(255, 0, 0)))
    ensures ToRGB(HSL(120.0, 1.0, 0.5)) == Ok(RGB(Triplet(0, 255, 0)))
    ensures ToHex(HSL(240.0, 1.0, 0.5)) == Ok(Hex(Triplet(0, 0, 255)))
  {
    Primaries();
  }

  /** Converting a second time to the same class changes nothing. */
  lemma ConversionsIdempotent(c: Color, ops: FloatOps)
    ensures ToRGB(c).Ok? ==> ToRGB(ToRGB(c).value) == ToRGB(c)
    ensures ToHex(c).Ok? ==> ToHex(ToHex(c).value) == ToHex(c)
    ensures ToHSL(c, ops).Ok? ==> ToHSL(ToHSL(c, ops).value, ops) == ToHSL(c, ops)
  {
  }

  /** HSL's `toHex` and `toRGB` agree: both fail or both give the same channels. */
  lemma HslHexMatchesRgb(h: real, s: real, l: real)
    ensures ToHex(HSL(h, s, l)).Ok? == ToRGB(HSL(h, s, l)).Ok?
    ensures ToHex(HSL(h, s, l)).Ok? ==> ToHex(HSL(h, s, l)).value.ch == ToRGB(HSL(h, s, l)).value.ch
  {
    if 0.0 <= h < 360.0 {
      RebuildIsIdentity(HslToRgb(h, s, l).value);
    }
  }

  /** BaseRGB, RGB and Hex share one `toHSL`, applied to the stored channels in red, green, blue order. */
  lemma ToHslShared(t: Triplet, ops: FloatOps)
    ensures ToHSL(RGB(t), ops) == ToHSL(Hex(t), ops) == ToHSL(BaseRGB(t), ops)
    ensures RgbToHsl(t, ops).Ok? ==>
      ToHSL(RGB(t), ops) == Ok(HSL(RgbToHsl(t, ops).value.0, RgbToHsl(t, ops).value.1, RgbToHsl(t, ops).value.2))
  {
  }

  /** With an exact square root, `toHSL` of an RGB or Hex colour fails exactly on the greys. */
  lemma ToHslFailsOnGreys(t: Triplet, ops: FloatOps)
    requires IsSqrt(ops.sqrt)
    ensures ToHSL(RGB(t), ops).Err? <==> IsGrey(t)
    ensures ToHSL(RGB(t), ops).Err? ==> ToHSL(RGB(t), ops).error == ZeroDivision
    ensures ToHSL(Hex(t), ops).Err? <==> IsGrey(t)
    ensures ToHSL(Hex(t), ops).Err? ==> ToHSL(Hex(t), ops).error == ZeroDivision
  {
    RgbToHslOutcome(t, ops);
    ToHslShared(t, ops);
  }

  /** Pure red formats as "ff0000", in mode "hex" and under the method's own default mode. */
  lemma FormatRedAsHex(ops: FloatOps)
    ensures Format(RGB(Triplet(255, 0, 0)), ops, "hex") == Ok("ff0000")
    ensures Format(RGB(Triplet(255, 0, 0)), ops) == Ok("ff0000")
  {
    HexStrPadsChannels();
    FormatHexRendersToHex(RGB(Triplet(255, 0, 0)), ops);
  }

  /** Pure red formats as "rgb(255, 0, 0)" in mode "rgb". */
  lemma FormatRedAsRgb(ops: FloatOps)
    ensures Format(RGB(Triplet(255, 0, 0)), ops, "rgb") == Ok("rgb(255, 0, 0)")
  {
    RedInDecimal();
    FormatRgbRendersToRgb(RGB(Triplet(255, 0, 0)), ops);
  }

  /** The empty mode gives the empty string and an unknown mode a ValueError, for every colour. */
  lemma FormatModeExamples(c: Color, ops: FloatOps)
    ensures Format(c, ops, "") == Ok("")
    ensures Format(c, ops, "bogus") == Err(ValueError)
  {
    assert "bogus" !in Modes;
  }

  /** Pure red renders in decimal as `rgb(255, 0, 0)`. */
  lemma RedInDecimal()
    ensures RgbStr(Triplet(255, 0, 0)) == "rgb(255, 0, 0)"
  {
    assert Dec(255) == "255" && Dec(0) == "0";
  }
}

=== FILE: errors.dfy ===
/** The exceptions raised by the colour-value layer, as values. */
module Errors {

  /** Which Python exception a failing operation raises. */
  datatype Error =
    | NotImplemented  // NotImplementedError: an operation of an abstract class
    | ValueError      // ValueError: hue outside [0,360), unknown format mode, acos outside its domain
    | ZeroDivision    // ZeroDivisionError: a division whose divisor is zero

  /** The outcome of an operation that may raise. */
  datatype Result<T> = Ok(value: T) | Err(error: Error)
}

=== FILE: floats.dfy ===
/**
 * Python float operations over exact reals. IEEE-754 rounding is not modelled;
 * the library routines the model cannot define (square root, arc cosine and
 * fixed-point decimal rendering) are parameters bundled in FloatOps.
 */
module Floats {

  /** `math.sqrt` (written `** 0.5` in the source), `math.acos`, and `format(x, '.<digits>f')`. */
  datatype FloatOps = FloatOps(sqrt: real -> real, acos: real -> real, fixed: (real, nat) -> string)

  /** The square-root parameter is the exact non-negative square root. */
  ghost predicate IsSqrt(sqrt: real -> real)
  {
    forall x: real :: 0.0 <= x ==> 0.0 <= sqrt(x) && sqrt(x) * sqrt(x) == x
  }

  /** The exact square root is zero only at zero. */
  lemma SqrtFacts(sqrt: real -> real, x: real)
    requires IsSqrt(sqrt) && 0.0 <= x
    ensures 0.0 <= sqrt(x) && sqrt(x) * sqrt(x) == x
    ensures sqrt(x) == 0.0 <==> x == 0.0
  {
    SquareZero(sqrt(x), x);
  }

  /** A non-negative root of x is zero exactly when x is. */
  lemma SquareZero(s: real, x: real)
    requires 0.0 <= s && x == s * s
    ensures s == 0.0 <==> x == 0.0
  {
    if 0.0 < s {
      calc {
        x;
      ==
        s * s;
      >  // a positive factor keeps the sign of the other
        0.0 * s;
      }
    }
  }

  /** `abs(x)` */
  function Abs(x: real): (r: real)
    ensures 0.0 <= r && (r == x || r == -x)
  {
    if x < 0.0 then -x else x
  }

  /** `max(x, y)` */
  function Max(x: real, y: real): (r: real)
    ensures x <= r && y <= r && (r == x || r == y)
  {
    if x < y then y else x
  }

  /** `x % m` for a positive divisor: Python floors the quotient, so the result lies in [0, m). */
  function FloatMod(x: real, m: real): (r: real)
    requires 0.0 < m
    ensures 0.0 <= r < m
  {
    var k := (x / m).Floor;
    MulFloorBounds(x, m);
    x - m * (k as real)
  }

  lemma MulFloorBounds(x: real, m: real)
    requires 0.0 < m
    ensures m * ((x / m).Floor as real) <= x < m * ((x / m).Floor as real) + m
  {
    var q := x / m;
    var k := q.Floor as real;
    assert k <= q < k + 1.0;
    assert x == m * q;
    ScaleLess(m, k, q);
    ScaleLess(m, q, k + 1.0);
    assert m * (k + 1.0) == m * k + m;
    assert x < m * k + m;
  }

  /** Multiplying by a positive factor keeps the order. */
  lemma ScaleLess(m: real, a: real, b: real)
    requires 0.0 < m
    ensures a <= b ==> m * a <= m * b
    ensures a < b ==> m * a < m * b
  {
    assert m * b - m * a == m * (b - a);
  }

  /** The remainder is the unique r in [0, m) with x - r a whole multiple of m. */
  lemma FloatModUnique(x: real, m: real, r: real, k: int)
    requires 0.0 < m && 0.0 <= r < m && x == r + m * (k as real)
    ensures FloatMod(x, m) == r
  {
    var q := x / m;
    DivShift(r, m, k as real);
    assert q == r / m + k as real;
    FractionBelowOne(r, m);
    assert q.Floor == k;
  }

  /** A remainder in [0, m) is a fraction of m in [0, 1). */
  lemma FractionBelowOne(r: real, m: real)
    requires 0.0 < m && 0.0 <= r < m
    ensures 0.0 <= r / m < 1.0
  {
    var f := r / m;
    assert m * f == r;
    ScaleLess(m, 1.0, f);
    ScaleLess(m, f, 0.0);
    assert m * 0.0 == 0.0 && m * 1.0 == m;
    assert 1.0 <= f ==> m <= r;
    assert f < 0.0 ==> r < 0.0;
  }

  /** Values already in [0, m) are left alone. */
  lemma FloatModOfRange(x: real, m: real)
    requires 0.0 < m && 0.0 <= x < m
    ensures FloatMod(x, m) == x
  {
    FloatModUnique(x, m, x, 0);
  }

  /** Shifting by a whole number of periods does not change the remainder. */
  lemma FloatModPeriodic(x: real, m: real, k: int)
    requires 0.0 < m
    ensures FloatMod(x + m * (k as real), m) == FloatMod(x, m)
  {
    var r := FloatMod(x, m);
    var j := (x / m).Floor;
    FloatModUnique(x + m * (k as real), m, r, j + k);
  }

  /** Dividing a shifted numerator: adding c whole divisors adds c to the quotient. */
  lemma DivShift(a: real, d: real, c: real)
    requires d != 0.0
    ensures (a + d * c) / d == a / d + c
  {
    var q := a / d;
    assert a == q * d;
    assert a + d * c == (q + c) * d;
  }

  /** `int(x)` for a float: truncation toward zero. */
  function Trunc(x: real): (r: int)
    ensures Abs(r as real) <= Abs(x) < Abs(r as real) + 1.0
    ensures (0.0 <= x ==> 0 <= r) && (x <= 0.0 ==> r <= 0)
  {
    if 0.0 <= x then x.Floor else -((-x).Floor)
  }

  /** `int(n)` of a float holding a whole number gives that number back. */
  lemma TruncOfInt(n: int)
    ensures Trunc(n as real) == n
  {
  }

  /** On non-negative values truncation keeps the order. */
  lemma TruncMonotone(a: real, b: real)
    requires 0.0 <= a <= b
    ensures Trunc(a) <= Trunc(b)
  {
  }
}

=== FILE: hex.dfy ===
/** The hexadecimal rendering of class Hex, six lower-case digits. */
module HexFormat {
  import opened Text
  import opened BaseRgb

  /** The value of a two-digit hexadecimal string. */
  function HexPairValue(s: string): int
    requires |s| == 2 && IsHexDigit(s[0]) && IsHexDigit(s[1])
  {
    16 * DigitValue(s[0]) + DigitValue(s[1])
  }

  /**
   * `Hex.__str__`: `f'{red:02x}{green:02x}{blue:02x}'`. Exactly six
   * lower-case hexadecimal digits, two per channel in red, green, blue
   * order, and each pair reads back as its channel.
   */
  function HexStr(t: Triplet): (s: string)
    ensures |s| == 6 && forall i :: 0 <= i < 6 ==> IsHexDigit(s[i])
    ensures HexPairValue(s[0..2]) == t.red
    ensures HexPairValue(s[2..4]) == t.green
    ensures HexPairValue(s[4..6]) == t.blue
  {
    var r, g, b := Hex2(t.red), Hex2(t.green), Hex2(t.blue);
    var s := r + g + b;
    assert s[0..2] == r && s[2..4] == g && s[4..6] == b;
    s
  }

  /** Distinct colours have distinct hex strings. */
  lemma HexStrInjective(a: Triplet, b: Triplet)
    requires HexStr(a) == HexStr(b)
    ensures a == b
  {
  }

  /** A single-digit channel is zero-padded: 5 renders as "05". */
  lemma HexStrPadsChannels()
    ensures HexStr(Triplet(255, 0, 0)) == "ff0000"
    ensures HexStr(Triplet(5, 171, 16)) == "05ab10"
  {
  }
}

=== FILE: hsl.dfy ===
/**
 * HSL values and the colour-wheel conversion to RGB (`HSL.hslToRGB`).
 */
module HslWheel {
  import opened Errors
  import opened Floats
  import opened BaseRgb

  /** `1 - abs(2 * luminescence - 1)`: the widest chroma a luminescence in [0, 1] leaves room for. */
  function Spread(l: real): (c: real)
    ensures 0.0 <= l <= 1.0 ==> 0.0 <= c <= 1.0 && c / 2.0 <= l && c / 2.0 <= 1.0 - l
  {
    1.0 - Abs(2.0 * l - 1.0)
  }

  /** `x = saturation * (1 - abs(2 * luminescence - 1))`, the chroma. */
  function Chroma(s: real, l: real): real
  {
    s * Spread(l)
  }

  /** `y = 0xff * (luminescence - 0.5 * x)`, the offset shared by all channels. */
  function Offset(s: real, l: real): real
  {
    255.0 * (l - 0.5 * Chroma(s, l))
  }

  /** `z = x * (1 - abs((hue / 60) % 2 - 1))`, the second-largest component. */
  function Second(h: real, s: real, l: real): real
  {
    Chroma(s, l) * (1.0 - Abs(FloatMod(h / 60.0, 2.0) - 1.0))
  }

  /** The rebound `x = 0xff * x + y`: the largest channel before truncation. */
  function Top(s: real, l: real): real
  {
    255.0 * Chroma(s, l) + Offset(s, l)
  }

  /** The rebound `z = 0xff * z + y`: the middle channel before truncation. */
  function Middle(h: real, s: real, l: real): real
  {
    255.0 * Second(h, s, l) + Offset(s, l)
  }

  /** `RGB(*map(int, rgb))`: truncate each float toward zero, then mask as the constructor does. */
  function Truncated(red: real, green: real, blue: real): Triplet
  {
    MakeTriplet(Trunc(red), Trunc(green), Trunc(blue))
  }

  /**
   * `HSL.hslToRGB(hue, saturation, luminescence)`: the if/elif chain over
   * half-open sextants of the hue, failing with a ValueError for a hue
   * outside [0, 360). Saturation and luminescence are not checked.
   */
  function HslToRgb(h: real, s: real, l: real): (r: Result<Triplet>)
    ensures r.Err? <==> h < 0.0 || 360.0 <= h
    ensures r.Err? ==> r.error == ValueError
  {
    var x, y, z := Top(s, l), Offset(s, l), Middle(h, s, l);
    if h < 60.0 && h >= 0.0 then Ok(Truncated(x, z, y))
    else if h < 120.0 && h >= 60.0 then Ok(Truncated(z, x, y))
    else if h < 180.0 && h >= 120.0 then Ok(Truncated(y, x, z))
    else if h < 240.0 && h >= 180.0 then Ok(Truncated(y, z, x))
    else if h < 300.0 && h >= 240.0 then Ok(Truncated(z, y, x))
    else if h < 360.0 && h >= 300.0 then Ok(Truncated(x, y, z))
    else Err(ValueError)
  }

  /** The sextant [60k, 60k + 60) a valid hue falls in. */
  function Sextant(h: real): (k: int)
    requires 0.0 <= h < 360.0
    ensures 0 <= k < 6
    ensures 60.0 * (k as real) <= h < 60.0 * (k as real) + 60.0
  {
    (h / 60.0).Floor
  }

  /** The sextants do not overlap: a hue lies in exactly one of them. */
  lemma SextantUnique(h: real, k: int)
    requires 0.0 <= h < 360.0
    requires 60.0 * (k as real) <= h < 60.0 * (k as real) + 60.0
    ensures k == Sextant(h)
  {
  }

  /** The colour wheel: which of the largest, middle and offset values each channel takes in sextant k. */
  function Wheel(k: int, x: real, y: real, z: real): (rgb: (real, real, real))
    requires 0 <= k < 6
  {
    match k
    case 0 => (x, z, y)
    case 1 => (z, x, y)
    case 2 => (y, x, z)
    case 3 => (y, z, x)
    case 4 => (z, y, x)
    case _ => (x, y, z)
  }

  /** The branch the chain takes for a valid hue is the one of the hue's sextant. */
  lemma HslToRgbBySextant(h: real, s: real, l: real)
    requires 0.0 <= h < 360.0
    ensures
      var w := Wheel(Sextant(h), Top(s, l), Offset(s, l), Middle(h, s, l));
      HslToRgb(h, s, l) == Ok(Truncated(w.0, w.1, w.2))
  {
  }

  /**
   * For saturation and luminescence in [0, 1] the components stay in range:
   * chroma in [0, 1], the second component between 0 and the chroma, a
   * non-negative offset, and a largest channel of at most 255. Every channel
   * before truncation therefore lies in [0, 255] and the mask never wraps.
   */
  lemma ComponentsInRange(h: real, s: real, l: real)
    requires 0.0 <= s <= 1.0 && 0.0 <= l <= 1.0
    ensures 0.0 <= Chroma(s, l) <= 1.0
    ensures 0.0 <= Second(h, s, l) <= Chroma(s, l)
    ensures 0.0 <= Offset(s, l) <= Middle(h, s, l) <= Top(s, l) <= 255.0
  {
    var c := Spread(l);
    var x := Chroma(s, l);
    ScaleBetween(s, c);
    HalfChromaFits(x, c, l);
    assert Offset(s, l) == 255.0 * (l - 0.5 * x);
    assert Top(s, l) == 255.0 * (l + 0.5 * x);
    var w := 1.0 - Abs(FloatMod(h / 60.0, 2.0) - 1.0);
    assert 0.0 <= w <= 1.0;
    ScaleBetween(w, x);
    assert Second(h, s, l) == w * x;
  }

  /** Half of a chroma below 1 - |2l - 1| fits between 0 and l, and l plus it stays at most 1. */
  lemma HalfChromaFits(x: real, c: real, l: real)
    requires 0.0 <= x <= c && c / 2.0 <= l && c / 2.0 <= 1.0 - l
    ensures 0.0 <= 0.5 * x <= l && l + 0.5 * x <= 1.0
  {
  }

  /** Scaling a non-negative value by a factor in [0, 1] keeps it between 0 and itself. */
  lemma ScaleBetween(f: real, v: real)
    requires 0.0 <= f <= 1.0 && 0.0 <= v
    ensures 0.0 <= f * v <= v
  {
    assert v - f * v == (1.0 - f) * v;
  }

  /**
   * The channel ordering of each sextant, going round the wheel: red leads
   * in sextants 0 and 5, green in 1 and 2, blue in 3 and 4.
   */
  predicate WheelOrdered(k: int, t: Triplet)
  {
    match k
    case 0 => t.blue <= t.green <= t.red
    case 1 => t.blue <= t.red <= t.green
    case 2 => t.red <= t.blue <= t.green
    case 3 => t.red <= t.green <= t.blue
    case 4 => t.green <= t.red <= t.blue
    case _ => t.green <= t.blue <= t.red
  }

  /** Truncating the wheel values of sextant k, when 0 <= y <= z <= x <= 255, gives bytes in the wheel's order. */
  lemma TruncatedWheel(k: int, x: real, y: real, z: real)
    requires 0 <= k < 6 && 0.0 <= y <= z <= x <= 255.0
    ensures
      var w := Wheel(k, x, y, z);
      var t := Truncated(w.0, w.1, w.2);
      t == Triplet(Trunc(w.0), Trunc(w.1), Trunc(w.2)) &&
      WheelOrdered(k, t) && MaxChannel(t) == Trunc(x) && MinChannel(t) == Trunc(y)
  {
    TruncMonotone(y, z);
    TruncMonotone(z, x);
    TruncMonotone(x, 255.0);
    assert Trunc(255.0) == 255;
  }

  /**
   * For a valid hue and saturation and luminescence in [0, 1], the
   * conversion succeeds, the channels are the truncated wheel values with
   * no wrap-around, they are ordered as the hue's sextant says, the largest
   * channel is the truncated `255x + y` and the smallest the truncated `y`.
   */
  lemma WheelOrdering(h: real, s: real, l: real)
    requires 0.0 <= h < 360.0 && 0.0 <= s <= 1.0 && 0.0 <= l <= 1.0
    ensures HslToRgb(h, s, l).Ok?
    ensures
      var k := Sextant(h);
      var w := Wheel(k, Top(s, l), Offset(s, l), Middle(h, s, l));
      var t := HslToRgb(h, s, l).value;
      t.red == Trunc(w.0) && t.green == Trunc(w.1) && t.blue == Trunc(w.2) &&
      WheelOrdered(k, t) &&
      MaxChannel(t) == Trunc(Top(s, l)) && MinChannel(t) == Trunc(Offset(s, l))
  {
    var x, y, z := Top(s, l), Offset(s, l), Middle(h, s, l);
    ComponentsInRange(h, s, l);
    assert 0.0 <= y <= z <= x <= 255.0;
    HslToRgbBySextant(h, s, l);
    TruncatedWheel(Sextant(h), x, y, z);
  }

  /**
   * At an even multiple of 60 degrees, full saturation and half
   * luminescence, the conversion gives 255 in the leading channel and 0 in
   * the others.
   */
  lemma PrimaryAt(k: int)
    requires k == 0 || k == 2 || k == 4
    ensures
      var w := Wheel(k, 255.0, 0.0, 0.0);
      HslToRgb(60.0 * (k as real), 1.0, 0.5) == Ok(Truncated(w.0, w.1, w.2))
  {
    var h := 60.0 * (k as real);
    FullSaturationHalfLight(h, k);
    SextantUnique(h, k);
    HslToRgbBySextant(h, 1.0, 0.5);
  }

  lemma FullSaturationHalfLight(h: real, k: int)
    requires (k == 0 || k == 2 || k == 4) && h == 60.0 * (k as real)
    ensures Top(1.0, 0.5) == 255.0 && Offset(1.0, 0.5) == 0.0 && Middle(h, 1.0, 0.5) == 0.0
  {
    assert h / 60.0 == k as real;
    FloatModUnique(k as real, 2.0, 0.0, k / 2);
    assert Chroma(1.0, 0.5) == 1.0;
  }

  /**
   * Where the hue sits inside its sextant: the second component rises from 0
   * to the chroma across an even sextant and falls back to 0 across an odd
   * one, linearly in the hue.
   */
  lemma SecondRamps(h: real, s: real, l: real)
    requires 0.0 <= h < 360.0
    ensures
      var k := Sextant(h);
      Second(h, s, l) == Chroma(s, l) * (if k % 2 == 0 then h / 60.0 - k as real else (k + 1) as real - h / 60.0)
  {
    var k := Sextant(h);
    var j := k / 2;
    var r := h / 60.0 - 2.0 * (j as real);
    assert k == 2 * j + k % 2;
    assert k as real <= h / 60.0 < k as real + 1.0;
    assert 0.0 <= r < 2.0;
    FloatModUnique(h / 60.0, 2.0, r, j);
    var ramp := if k % 2 == 0 then h / 60.0 - k as real else (k + 1) as real - h / 60.0;
    assert 1.0 - Abs(r - 1.0) == ramp;
  }

  /**
   * At an odd multiple of 60 degrees, full saturation and half luminescence,
   * the second component is full, so two channels are 255 and one is 0.
   */
  lemma SecondaryAt(k: int)
    requires k == 1 || k == 3 || k == 5
    ensures
      var w := Wheel(k, 255.0, 0.0, 255.0);
      HslToRgb(60.0 * (k as real), 1.0, 0.5) == Ok(Truncated(w.0, w.1, w.2))
  {
    var h := 60.0 * (k as real);
    SextantUnique(h, k);
    SecondRamps(h, 1.0, 0.5);
    assert h / 60.0 == k as real;
    assert Chroma(1.0, 0.5) == 1.0;
    assert Second(h, 1.0, 0.5) == 1.0;
    assert Top(1.0, 0.5) == 255.0 && Offset(1.0, 0.5) == 0.0 && Middle(h, 1.0, 0.5) == 255.0;
    HslToRgbBySextant(h, 1.0, 0.5);
  }

  /** Yellow, cyan and magenta at full saturation and half luminescence. */
  lemma Secondaries()
    ensures HslToRgb(60.0, 1.0, 0.5) == Ok(Triplet(255, 255, 0))
    ensures HslToRgb(180.0, 1.0, 0.5) == Ok(Triplet(0, 255, 255))
    ensures HslToRgb(300.0, 1.0, 0.5) == Ok(Triplet(255, 0, 255))
  {
    assert Trunc(0.0) == 0 && Trunc(255.0) == 255;
    SecondaryAt(1);
    TruncatedWheel(1, 255.0, 0.0, 255.0);
    SecondaryAt(3);
    TruncatedWheel(3, 255.0, 0.0, 255.0);
    SecondaryAt(5);
    TruncatedWheel(5, 255.0, 0.0, 255.0);
  }

  /** Pure red, green and blue at full saturation and half luminescence. */
  lemma Primaries()
    ensures HslToRgb(0.0, 1.0, 0.5) == Ok(Triplet(255, 0, 0))
    ensures HslToRgb(120.0, 1.0, 0.5) == Ok(Triplet(0, 255, 0))
    ensures HslToRgb(240.0, 1.0, 0.5) == Ok(Triplet(0, 0, 255))
  {
    PrimaryTriplet(0);
    PrimaryTriplet(2);
    PrimaryTriplet(4);
  }

  lemma PrimaryTriplet(k: int)
    requires k == 0 || k == 2 || k == 4
    ensures HslToRgb(60.0 * (k as real), 1.0, 0.5) ==
      Ok(if k == 0 then Triplet(255, 0, 0) else if k == 2 then Triplet(0, 255, 0) else Triplet(0, 0, 255))
  {
    assert Trunc(0.0) == 0 && Trunc(255.0) == 255;
    PrimaryAt(k);
    TruncatedWheel(k, 255.0, 0.0, 0.0);
  }
}

=== FILE: rgb.dfy ===
/** The decimal rendering of class RGB, `rgb(R, G, B)`. */
module RgbFormat {
  import opened Text
  import opened BaseRgb

  /** `RGB.__str__`: `f'rgb({red}, {green}, {blue})'`. */
  function RgbStr(t: Triplet): (s: string)
    ensures 12 <= |s| <= 18
    ensures s[..4] == "rgb(" && s[|s| - 1] == ')'
  {
    var s := "rgb(" + Dec(t.red) + ", " + Dec(t.green) + ", " + Dec(t.blue) + ")";
    assert s[..4] == "rgb(";
    assert |Dec(t.red)| <= 3 && |Dec(t.green)| <= 3 && |Dec(t.blue)| <= 3;
    assert s[|s| - 1] == ')';
    s
  }

  /**
   * The numerals appear in red, green, blue order: splitting the rendering
   * into any three decimal numerals and reading each back gives the red,
   * green and blue channels in turn.
   */
  lemma RgbStrReadsBack(t: Triplet, p1: string, p2: string, p3: string)
    requires AllDecDigits(p1) && AllDecDigits(p2) && AllDecDigits(p3)
    requires RgbStr(t) == "rgb(" + p1 + ", " + p2 + ", " + p3 + ")"
    ensures ParseDec(p1) == t.red && ParseDec(p2) == t.green && ParseDec(p3) == t.blue
  {
    NumeralListInjective(Dec(t.red), Dec(t.green), Dec(t.blue), p1, p2, p3);
  }

  /** The rendering is injective: the string determines all three channels. */
  lemma RgbStrInjective(a: Triplet, b: Triplet)
    requires RgbStr(a) == RgbStr(b)
    ensures a == b
  {
    NumeralListInjective(Dec(a.red), Dec(a.green), Dec(a.blue), Dec(b.red), Dec(b.green), Dec(b.blue));
    DecInjective(a.red, b.red);
    DecInjective(a.green, b.green);
    DecInjective(a.blue, b.blue);
  }

  /** `rgb(p1, p2, p3)` with decimal numerals p1..p3 can be split in one way only. */
  lemma NumeralListInjective(p1: string, p2: string, p3: string, q1: string, q2: string, q3: string)
    requires AllDecDigits(p1) && AllDecDigits(p2) && AllDecDigits(p3)
    requires AllDecDigits(q1) && AllDecDigits(q2) && AllDecDigits(q3)
    requires "rgb(" + p1 + ", " + p2 + ", " + p3 + ")" == "rgb(" + q1 + ", " + q2 + ", " + q3 + ")"
    ensures p1 == q1 && p2 == q2 && p3 == q3
  {
    var pr := p1 + (", " + (p2 + (", " + (p3 + ")"))));
    var qr := q1 + (", " + (q2 + (", " + (q3 + ")"))));
    assert "rgb(" + p1 + ", " + p2 + ", " + p3 + ")" == "rgb(" + pr;
    assert "rgb(" + q1 + ", " + q2 + ", " + q3 + ")" == "rgb(" + qr;
    assert pr == ("rgb(" + pr)[4..] == qr;
    SplitAtNonDigit(p1, ", " + (p2 + (", " + (p3 + ")"))), q1, ", " + (q2 + (", " + (q3 + ")"))));
    NumeralPairInjective(p2, p3, q2, q3);
  }

  lemma NumeralPairInjective(p2: string, p3: string, q2: string, q3: string)
    requires AllDecDigits(p2) && AllDecDigits(p3) && AllDecDigits(q2) && AllDecDigits(q3)
    requires ", " + (p2 + (", " + (p3 + ")"))) == ", " + (q2 + (", " + (q3 + ")")))
    ensures p2 == q2 && p3 == q3
  {
    var pr, qr := p2 + (", " + (p3 + ")")), q2 + (", " + (q3 + ")"));
    assert pr == (", " + pr)[2..];
    assert qr == (", " + qr)[2..];
    SplitAtNonDigit(p2, ", " + (p3 + ")"), q2, ", " + (q3 + ")"));
    assert p3 + ")" == (", " + (p3 + ")"))[2..];
    assert q3 + ")" == (", " + (q3 + ")"))[2..];
    SplitAtNonDigit(p3, ")", q3, ")");
  }
}

=== FILE: text.dfy ===
/**
 * The integer renderings Python's string formatting produces for this code:
 * `str(n)` / `{n}` (decimal), `{n:02d}` (decimal, zero-padded to width two)
 * and `{n:02x}` (lower-case hexadecimal, zero-padded to width two).
 */
module Text {

  predicate IsDecDigit(c: char) { '0' <= c <= '9' }

  predicate IsHexDigit(c: char) { '0' <= c <= '9' || 'a' <= c <= 'f' }

  predicate AllDecDigits(s: string)
  {
    forall i :: 0 <= i < |s| ==> IsDecDigit(s[i])
  }

  /** The value of one lower-case hexadecimal (or decimal) digit. */
  function DigitValue(c: char): (d: int)
    requires IsHexDigit(c)
    ensures 0 <= d < 16 && (IsDecDigit(c) <==> d < 10)
  {
    if c <= '9' then c as int - '0' as int else c as int - 'a' as int + 10
  }

  /** The digit for a value below 16; letters are lower case, as the `x` format gives. */
  function DigitChar(d: int): (c: char)
    requires 0 <= d < 16
    ensures IsHexDigit(c) && DigitValue(c) == d
  {
    if d < 10 then ('0' as int + d) as char else ('a' as int + d - 10) as char
  }

  /** The number a string of decimal digits denotes. */
  function ParseDec(s: string): (n: nat)
    requires AllDecDigits(s)
  {
    if s == [] then 0 else ParseDec(s[..|s| - 1]) * 10 + DigitValue(s[|s| - 1])
  }

  /** `str(n)` for a non-negative integer: its decimal numeral, without leading zeros. */
  function Dec(n: nat): (s: string)
    ensures 1 <= |s| && AllDecDigits(s)
    ensures ParseDec(s) == n
    ensures s[0] == '0' ==> n == 0
    ensures |s| == 1 <==> n < 10
    ensures |s| <= 2 <==> n < 100
    ensures |s| <= 3 <==> n < 1000
  {
    if n < 10 then [DigitChar(n)]
    else
      var s := Dec(n / 10) + [DigitChar(n % 10)];
      assert s[..|s| - 1] == Dec(n / 10);
      s
  }

  /** Distinct numbers have distinct numerals. */
  lemma DecInjective(a: nat, b: nat)
    requires Dec(a) == Dec(b)
    ensures a == b
  {
    assert a == ParseDec(Dec(a));
  }

  /** `format(n, '02d')`: zero-padded to two characters; the sign counts toward the width. */
  function Pad2(n: int): (s: string)
    ensures 2 <= |s|
    ensures 0 <= n < 100 ==> |s| == 2 && AllDecDigits(s) && ParseDec(s) == n
    ensures 100 <= n ==> s == Dec(n)
    ensures n < 0 ==> s[0] == '-' && s[1..] == Dec(-n)
  {
    if n < 0 then "-" + Dec(-n)
    else if n < 10 then
      var s := "0" + Dec(n);
      assert s[..1] == "0";
      s
    else Dec(n)
  }

  /** `format(b, '02x')` for a byte. */
  function Hex2(b: int): (s: string)
    requires 0 <= b < 256
    ensures |s| == 2 && IsHexDigit(s[0]) && IsHexDigit(s[1])
    ensures 16 * DigitValue(s[0]) + DigitValue(s[1]) == b
  {
    [DigitChar(b / 16), DigitChar(b % 16)]
  }

  /**
   * A numeral followed by a non-digit can be split in one way only: if two
   * strings agree, their leading runs of digits agree and so do their rests.
   */
  lemma {:induction false} SplitAtNonDigit(p: string, x: string, q: string, y: string)
    requires AllDecDigits(p) && AllDecDigits(q)
    requires |x| > 0 && !IsDecDigit(x[0]) && |y| > 0 && !IsDecDigit(y[0])
    requires p + x == q + y
    ensures p == q && x == y
  {
    var s := p + x;
    assert forall i :: 0 <= i < |q| ==> s[i] == q[i];
    assert forall i :: 0 <= i < |p| ==> s[i] == p[i];
    assert !IsDecDigit(s[|p|]) && !IsDecDigit(s[|q|]);
    assert |p| == |q|;
    assert p == (p + x)[..|p|];
    assert q == (q + y)[..|q|];
    assert x == (p + x)[|p|..];
    assert y == (q + y)[|q|..];
  }
}

=== FILE: time.dfy ===
/**
 * A time of day and its place on the colour wheel (`colorcycle.time.Time`):
 * minute and second select a hue within a repeating span of minutes.
 */
module TimeHue {
  import opened Errors
  import opened Floats
  import opened Text
  import opened Colors

  /** `Time(hour, minute, second=0)`: no field is range-checked. */
  datatype Time = Time(hour: int, minute: int, second: int := 0)

  /** `(360.0 - hue) % 360.0`, the reverse step: the hue mirrored across the 0-180 axis. */
  function Reflect(h: real): (r: real)
    ensures 0.0 <= r < 360.0
  {
    FloatMod(360.0 - h, 360.0)
  }

  /**
   * `Time.toHue(startHue, reverse, spanMinutes)`: the seconds past the hour
   * scaled so that `spanMinutes` minutes make a full turn, shifted by
   * `startHue`, reduced modulo 360 and, if asked, reflected. The hour is not
   * used. A zero span divides by zero.
   */
  function ToHue(t: Time, startHue: real := 0.0, reverse: bool := false, spanMinutes: real := 60.0): (r: Result<real>)
    ensures r.Err? <==> spanMinutes == 0.0
    ensures r.Err? ==> r.error == ZeroDivision
    ensures r.Ok? ==> 0.0 <= r.value < 360.0
  {
    var seconds := t.minute * 60 + t.second;
    var divisor := 60.0 * spanMinutes;
    if divisor == 0.0 then Err(ZeroDivision)
    else
      var turned := FloatMod((seconds as real) * 360.0 / divisor + startHue, 360.0);
      Ok(if reverse then Reflect(turned) else turned)
  }

  /**
   * `Time.toHSL(saturation, luminescence, startHue, reverse, spanMinutes)`:
   * an HSL colour whose hue is `toHue` of the same arguments and whose
   * saturation and luminescence are the ones given.
   */
  function ToHSL(t: Time, saturation: real := 0.25, luminescence: real := 0.5, startHue: real := 0.0,
                 reverse: bool := false, spanMinutes: real := 60.0): (r: Result<Color>)
    ensures r.Err? <==> spanMinutes == 0.0
    ensures r.Err? ==> r.error == ZeroDivision
    ensures r.Ok? ==>
      r.value.HSL? && r.value.hue == ToHue(t, startHue, reverse, spanMinutes).value &&
      r.value.saturation == saturation && r.value.luminescence == luminescence
  {
    var hue := ToHue(t, startHue, reverse, spanMinutes);
    if hue.Err? then Err(hue.error) else Ok(HSL(hue.value, saturation, luminescence))
  }

  /** `Time.__str__`: `f'{hour:02d}:{minute:02d}:{second:02d}'`. */
  function Str(t: Time): (s: string)
    ensures 8 <= |s|
  {
    Pad2(t.hour) + ":" + Pad2(t.minute) + ":" + Pad2(t.second)
  }

  /**
   * For fields in [0, 99] the rendering is `HH:MM:SS`: eight characters,
   * colons at positions 2 and 5, and each two-digit field reads back as
   * hour, minute and second.
   */
  lemma StrLayout(t: Time)
    requires 0 <= t.hour < 100 && 0 <= t.minute < 100 && 0 <= t.second < 100
    ensures
      var s := Str(t);
      |s| == 8 && s[2] == ':' && s[5] == ':' &&
      AllDecDigits(s[0..2]) && AllDecDigits(s[3..5]) && AllDecDigits(s[6..8]) &&
      ParseDec(s[0..2]) == t.hour && ParseDec(s[3..5]) == t.minute && ParseDec(s[6..8]) == t.second
  {
    var s := Str(t);
    assert s[0..2] == Pad2(t.hour);
    assert s[3..5] == Pad2(t.minute);
    assert s[6..8] == Pad2(t.second);
  }

  /** The hour plays no part: times with the same minute and second get the same hue. */
  lemma HueIgnoresHour(t: Time, u: Time, startHue: real, reverse: bool, spanMinutes: real)
    requires t.minute == u.minute && t.second == u.second
    ensures ToHue(t, startHue, reverse, spanMinutes) == ToHue(u, startHue, reverse, spanMinutes)
  {
  }

  /** Sample hues: the top of the hour, the half hour, a start offset, the reversed half hour, a reversed quarter hour and half a minute. */
  lemma HueExamples()
    ensures ToHue(Time(0, 0, 0)) == Ok(0.0)
    ensures ToHue(Time(0, 30, 0), spanMinutes := 60.0) == Ok(180.0)
    ensures ToHue(Time(0, 0, 0), startHue := 90.0) == Ok(90.0)
    ensures ToHue(Time(0, 30, 0), reverse := true, spanMinutes := 60.0) == Ok(180.0)
    ensures ToHue(Time(5, 30, 0)) == ToHue(Time(17, 30, 0))
    ensures ToHue(Time(0, 15, 0), reverse := true) == Ok(270.0)
    ensures ToHue(Time(0, 0, 30)) == Ok(3.0)
  {
    FloatModOfRange(270.0, 360.0);
    FloatModOfRange(3.0, 360.0);
    FloatModOfRange(0.0, 360.0);
    FloatModOfRange(180.0, 360.0);
    FloatModOfRange(90.0, 360.0);
  }

  /** Inside (0, 360) the reverse step mirrors the hue: h becomes 360 - h. */
  lemma ReflectMirrors(h: real)
    requires 0.0 < h < 360.0
    ensures Reflect(h) == 360.0 - h
  {
    FloatModOfRange(360.0 - h, 360.0);
  }

  /**
   * Each second moves the hue on by `360 / (60 * spanMinutes)` degrees,
   * modulo 360, so the colour changes with every second and not only with
   * every minute.
   */
  lemma HueAdvancesBySecond(t: Time, startHue: real, spanMinutes: real)
    requires spanMinutes != 0.0
    ensures
      ToHue(Time(t.hour, t.minute, t.second + 1), startHue, false, spanMinutes).value ==
      FloatMod(ToHue(t, startHue, false, spanMinutes).value + 360.0 / (60.0 * spanMinutes), 360.0)
  {
    var d := 60.0 * spanMinutes;
    var a := ((t.minute * 60 + t.second) as real) * 360.0 / d + startHue;
    var step := 360.0 / d;
    assert ((t.minute * 60 + t.second + 1) as real) * 360.0 / d + startHue == a + step;
    var k := (a / 360.0).Floor;
    FloatModPeriodic(a + step, 360.0, -k);
    assert FloatMod(a, 360.0) + step == a + step + 360.0 * ((-k) as real);
  }

  /** The reverse step fixes 0 and 180 and undoes itself on [0, 360). */
  lemma ReflectInvolution(h: real)
    requires 0.0 <= h < 360.0
    ensures Reflect(Reflect(h)) == h
    ensures Reflect(0.0) == 0.0 && Reflect(180.0) == 180.0
  {
    if h == 0.0 {
      FloatModUnique(360.0, 360.0, 0.0, 1);
    } else {
      FloatModOfRange(360.0 - h, 360.0);
      FloatModOfRange(h, 360.0);
    }
    FloatModUnique(360.0, 360.0, 0.0, 1);
    FloatModOfRange(180.0, 360.0);
  }

  /** Reversing gives the reflection of the forward hue. */
  lemma ReverseReflects(t: Time, startHue: real, spanMinutes: real)
    requires spanMinutes != 0.0
    ensures ToHue(t, startHue, true, spanMinutes).value == Reflect(ToHue(t, startHue, false, spanMinutes).value)
    ensures ToHue(t, startHue, false, spanMinutes).value == Reflect(ToHue(t, startHue, true, spanMinutes).value)
  {
    ReflectInvolution(ToHue(t, startHue, false, spanMinutes).value);
  }

  /**
   * The mapping repeats every `spanMinutes` minutes: moving the minute on by
   * a whole span (of any sign) leaves the hue unchanged.
   */
  lemma HueCycles(t: Time, startHue: real, reverse: bool, span: int)
    requires span != 0
    ensures
      var later := Time(t.hour, t.minute + span, t.second);
      ToHue(later, startHue, reverse, span as real) == ToHue(t, startHue, reverse, span as real)
  {
    var seconds := t.minute * 60 + t.second;
    var divisor := 60.0 * (span as real);
    var base := (seconds as real) * 360.0 / divisor + startHue;
    var a := (seconds as real) * 360.0;
    assert ((seconds + 60 * span) as real) * 360.0 == a + divisor * 360.0;
    DivShift(a, divisor, 360.0);
    FloatModPeriodic(base, 360.0, 1);
  }

  /**
   * The path from a time to a colour never fails for a non-zero span: the
   * hue lies in [0, 360), so the HSL value converts to RGB and to Hex.
   */
  lemma TimeColourConverts(t: Time, saturation: real, luminescence: real, startHue: real, reverse: bool, spanMinutes: real)
    requires spanMinutes != 0.0
    ensures
      var hsl := ToHSL(t, saturation, luminescence, startHue, reverse, spanMinutes);
      hsl.Ok? && ToRGB(hsl.value).Ok? && ToHex(hsl.value).Ok?
  {
  }
}
